=== FILE: README.md ===
# Aave reserve-data processor, modelled in Dafny

This project models `DataProcessor` from `data_process.py`: the component that
turns the raw response of Aave's `getReservesData` call into one metrics record
per reserve asset. The raw response is a list whose first element is the list of
reserve tuples. Each reserve tuple is read at fixed positions: address, name,
symbol, decimals, LTV, liquidation threshold and liquidation bonus at 0–6, the
variable borrow index at 13, the liquidity rate at 14, the variable borrow rate
at 15, the available liquidity at 20, the total scaled variable debt at 21, and
the borrow and supply caps at 36 and 37. From these fields it derives:

- LTV and liquidation threshold percentages (basis points divided by 100);
- the total variable debt (scaled debt times borrow index, over `RAY = 10^27`);
- TVL (debt plus available liquidity);
- utilization (debt over TVL, 0 when TVL is not positive);
- the lending and variable-borrow APYs (the APR `rate / RAY` compounded once per
  second over `SECONDS_PER_YEAR = 31_536_000`);
- the spread (borrow APY minus lending APY).

The files:

- `results.dfy` (module `Results`): the errors a call can end in, and a
  `Result` type usable with `:-`.
- `raw_values.dfy` (module `RawValues`): the dynamically typed values of the
  response (integers, booleans, strings, tuples). It also models the three
  operations the processor applies to them: subscripting (`IndexError` past the
  end, `TypeError` on a number), iteration, and use in arithmetic (a boolean is
  0 or 1, and a string or tuple raises `TypeError`).
- `rate_math.dfy` (module `RateMath`): the constants and the per-field
  arithmetic, over exact reals. `Pow` is a recursive power. It is reasoned about
  by induction (Bernoulli's inequality, monotonicity) and never evaluated.
- `reserve_decoding.dfy` (module `ReserveDecoding`): the positional layout,
  stated once as constants. It also holds the output record `AssetRecord` and
  `DecodeAsset`, which reads the fields in the order the source reads them, so
  the first bad field decides the error. Three lemmas state which error
  results in three cases:
  - `IndexError` for a tuple shorter than 38 fields whose arithmetic fields
    that exist are numbers (`ShortTupleIndexError`);
  - `TypeError` for a tuple of at least 38 fields that is not decodable
    (`NonNumericFieldTypeError`);
  - `TypeError` for a number in place of a tuple (`NumberReserveTypeError`).

  In other cases the error depends on which field is read first.
- `data_processor.dfy` (module `DataProcessor`): case-insensitive protocol
  dispatch, and the loop that appends one record per reserve. The loop is a
  `method` proved equal to the recursive specification `AaveReserveData`, and
  lemmas state what that specification guarantees.

The wall clock read for each record's `load_datetime` is a parameter
`clock: nat -> string`. Reading `i` stamps the `i`-th record, because the source
calls the clock once per reserve.

Three facts about `data_process.py` shape the model:

- A reserve that cannot be decoded aborts the whole batch. The exception raised
  while reading it (lines 46-81) propagates out of the loop at line 44, so no
  reserve is skipped and no partial list is returned.
- Only `"aave"` is dispatched (line 26). Every other protocol name raises.
- The record assembled at lines 84-102 has exactly the fields of `AssetRecord`.

## Model

| member | source | states |
|---|---|---|
| `DataProcessor.ProcessReserveData` | data_process.py:15-29 | A protocol whose lower-cased name is "aave" gets the Aave processing result. Every other name fails with `UnsupportedProtocol(protocol)`, and no records are produced. |
| `DataProcessor.AaveProtocolNames` | data_process.py:26 | The accepted names are exactly the 4-character strings spelling "aave" in any mix of upper and lower case. |
| `DataProcessor.ProcessAaveReserveData` | data_process.py:41-106 | The loop over `raw_data[0]` that appends one record per reserve computes exactly `AaveReserveData`. Its invariant is that the records so far are the decoding of the prefix already visited. |
| `DataProcessor.AaveReserveData` | data_process.py:41-44 | On success, `raw_data[0]` exists and is iterable. There is one record per reserve, and record `i` is reserve `i` decoded with clock reading `i`. |
| `DataProcessor.IsAaveProtocol` | data_process.py:26 | `protocol.lower() == "aave"`; an accepted name has exactly 4 characters. The full characterisation is in `AaveProtocolNames`. |
| `DataProcessor.LowerAscii` | data_process.py:26 | The lower-cased string has the same length and no capital letter. Each character is unchanged or is the lower-case form of a capital. |
| `DataProcessor.DecodeAll` | data_process.py:44-104 | On success there is one record per reserve, in input order. Record `i` is reserve `i` decoded with clock reading `i`. |
| `DataProcessor.DecodeAllSucceeds` | data_process.py:44-104 | A batch succeeds if and only if every reserve in it is decodable. |
| `DataProcessor.DecodeAllStopsAtFirstFailure` | data_process.py:44-104 | If reserve `k` is the first one that cannot be decoded, the whole batch fails with that reserve's error. |
| `DataProcessor.DecodeAllIgnoresClock` | data_process.py:101 | Two runs with different clocks fail alike, or produce records that are equal in every field except `load_datetime`. |
| `DataProcessor.AaveReserveDataShape` | data_process.py:41-44 | Processing succeeds if and only if `raw_data[0]` exists, is iterable and holds only decodable reserves. It then yields one record per reserve, in order. |
| `DataProcessor.EmptyReserveList` | data_process.py:41-44 | An empty reserve list gives an empty record list, not an error. |
| `ReserveDecoding.DecodeAsset` | data_process.py:46-102 | Decoding succeeds if and only if the reserve is a tuple of at least 38 fields whose arithmetic fields are numbers. On success, protocol is "Aave", and address, name, symbol, decimals, liquidation bonus, borrow cap and supply cap are copied from positions 0, 1, 2, 3, 6, 36 and 37. The timestamp is the clock reading. |
| `ReserveDecoding.ShortTupleIndexError` | data_process.py:46-81 | A tuple with fewer than 38 fields fails with `IndexError` when every arithmetic field it does have is a number. This is the exception of the first subscript past its end. |
| `ReserveDecoding.NonNumericFieldTypeError` | data_process.py:50-74 | A tuple with at least 38 fields that cannot be decoded fails with `TypeError`. A non-numeric value at line 50, 51, 58, 61, 68 or 74 is what raises it. |
| `ReserveDecoding.NumberReserveTypeError` | data_process.py:46 | An integer or boolean in place of a reserve tuple fails with `TypeError`, because it cannot be subscripted. |
| `ReserveDecoding.DecodedPercents` | data_process.py:50-51 | The LTV and liquidation-threshold percentages, times 100, give back the raw basis points at positions 4 and 5. |
| `ReserveDecoding.DecodedAmounts` | data_process.py:53-64 | The debt times RAY is the scaled debt (position 21) times the borrow index (position 13). TVL is the debt plus the available liquidity (position 20). Utilization% is 100 times `Utilization` of that debt and TVL. What that means is stated by `Utilization` and `UtilizationPercent`. |
| `ReserveDecoding.DecodedApys` | data_process.py:66-79 | The lending and variable-borrow APYs are `ApyPercent` of the raw rates at positions 14 and 15, and the spread is their difference. |
| `ReserveDecoding.DecodedAmountsBounded` | data_process.py:53-64 | With non-negative raw amounts, 0 ≤ debt ≤ TVL, TVL ≥ available liquidity, and utilization% lies in [0, 100]. |
| `ReserveDecoding.DecodedApysAtLeastAprs` | data_process.py:66-76 | With non-negative rates, each APY% is at least its APR × 100, which is at least 0. |
| `ReserveDecoding.DecodedSpreadNonNegative` | data_process.py:79 | The spread is non-negative whenever the variable borrow rate is at least the liquidity rate, from the lowest compoundable rate upwards (every non-negative rate included). |
| `ReserveDecoding.DecodeIgnoresClock` | data_process.py:101 | The clock reading changes only the record's timestamp, never the success or failure of decoding. |
| `RateMath.BpsToPercent` | data_process.py:50-51 | The percentage times 100 gives back the raw value (8000 gives 80). |
| `RateMath.TotalVariableDebt` | data_process.py:58 | Debt × RAY equals scaled debt × borrow index. The debt is non-negative for non-negative inputs, and equals the scaled debt when the index is exactly one ray. |
| `RateMath.TvlBounds` | data_process.py:61 | For non-negative debt and liquidity, TVL is at least each of them. It is zero exactly when both are. |
| `RateMath.Tvl` | data_process.py:61 | TVL minus the debt is the available liquidity. Bounds are in `TvlBounds`. |
| `RateMath.Utilization` | data_process.py:64 | When TVL > 0, utilization × TVL is the debt. Otherwise utilization is 0 and nothing is divided. When 0 ≤ debt ≤ TVL, it lies in [0, 1]. |
| `RateMath.UtilizationPercent` | data_process.py:64 | Utilization in percent, times a positive TVL, is the debt in percent. It is 0 when the TVL is not positive. |
| `RateMath.Apr` | data_process.py:68 | APR × RAY is the raw rate. A non-negative rate gives a non-negative APR. |
| `RateMath.ApyPercent` | data_process.py:67-76 | APY% / 100 + 1 is (1 + APR/N)^N with N = SECONDS_PER_YEAR, and a zero rate gives a zero APY. The bounds are in `ApyAtLeastApr`, `ApyNonNegative` and `ApyMonotone`. |
| `RateMath.Pow` | data_process.py:69 | No ensures: the `**` of line 69, over exact reals. Its properties are the lemmas `PowOfOne`, `PowNonNegative`, `PowMonotone` and `Bernoulli`. |
| `RawValues.Index` | data_process.py:42-81 | No ensures: Python's `v[k]` (IndexError past the end, TypeError on a number). Its effect on decoding is stated by `DecodeAsset` and `AaveReserveDataShape`. |
| `RawValues.Iterate` | data_process.py:44 | No ensures: the elements `for asset in reserves` visits. Its effect is stated by `AaveReserveDataShape`. |
| `RawValues.Numeric` | data_process.py:50-74 | No ensures: an operand of `/`, `*` or `+`, where a boolean counts as 0 or 1 and a string or tuple raises TypeError. Its effect is stated by `DecodeAsset`'s "decodable" condition. |
| `RateMath.PowOfOne` | data_process.py:69 | 1 raised to any power is 1. |
| `RateMath.PowNonNegative` | data_process.py:69 | A non-negative base gives a non-negative power. |
| `RateMath.PowMonotone` | data_process.py:69 | For 0 ≤ x ≤ y, x^n ≤ y^n. |
| `RateMath.Bernoulli` | data_process.py:69 | (1 + h)^n ≥ 1 + n·h for every h ≥ -1. |
| `RateMath.ApyAtLeastApr` | data_process.py:67-70 | For every rate whose per-second rate is at least -100% (every non-negative rate included), APY% ≥ APR × 100. |
| `RateMath.ApyNonNegative` | data_process.py:67-70 | A non-negative rate gives a non-negative APY. |
| `RateMath.ApyMonotone` | data_process.py:73-76 | APY% never decreases as the rate grows, from the lowest compoundable rate upwards. |

## Left out

- `pd.DataFrame` construction: the output is a sequence of records, one per row, in order.
- `round(..., 2)` on the percentage and amount fields: the records hold the exact, unrounded values.
- IEEE floating point: Python's float division, float addition and `**` are exact real arithmetic here.
  - Loss of precision is not modelled.
  - Overflow to infinity is not modelled. For example, a debt and a liquidity each below about 1.8e308 can sum to a TVL of `inf` at line 61, which makes utilization 0.0 at line 64. The model's values stay finite.
  - `OverflowError`, which aborts the batch in Python while `DecodeAsset` returns `Ok`, is not modelled. It comes from three places:
    - any int operand or quotient too large for a float, in the divisions at lines 50, 51, 58, 68 and 74;
    - the int-to-float conversion in the sum at line 61;
    - the float `**` at lines 69 and 75, when the APR exceeds about 709 or the compounding base drops below -1 (an APR below about -2 × `SECONDS_PER_YEAR`).
- `datetime.now(timezone.utc).strftime(...)`: the clock is the `clock` parameter, and its formatting is not modelled.
- `protocol.lower()` is modelled as ASCII lower-casing. This does not change the comparison with "aave", because no non-ASCII character lower-cases to 'a', 'v' or 'e'.
- `DecodeAsset` reports a non-numeric factor of the debt product as `TypeError`. Python may raise `OverflowError` or `MemoryError` instead, when a string or tuple is repeated by a huge integer before the division fails.
- The raw response is modelled with integer, boolean, string and tuple values only. Dictionaries, floats and other Python objects are not represented.
- The strict form of the APY bound (APY > APR for a non-zero rate) is not proved. Only APY ≥ APR is.
- The other files of the repository (chain access, ABI lookup, HTTP statistics, logging, configuration) are I/O and are not part of this model.

=== FILE: data_processor.dfy ===
/** The reserve-data processor: protocol dispatch and the loop that turns the
    reserve list of an Aave `getReservesData` response into one metrics
    record per reserve. */
module DataProcessor {
  import opened Results
  import opened RawValues
  import opened ReserveDecoding

  /** A character lower-cased when it is an ASCII capital letter. */
  function LowerChar(c: char): char
  {
    if 'A' <= c <= 'Z' then (c as int + 32) as char else c
  }

  /** The string with every ASCII capital letter lower-cased. */
  function LowerAscii(s: string): (lowered: string)
    ensures |lowered| == |s|
    ensures forall i :: 0 <= i < |s| ==> !('A' <= lowered[i] <= 'Z')
    ensures forall i :: 0 <= i < |s| ==>
      lowered[i] == s[i] || ('A' <= s[i] <= 'Z' && lowered[i] as int == s[i] as int + 32)
  {
    seq(|s|, i requires 0 <= i < |s| => LowerChar(s[i]))
  }

  /** The protocol name, compared case-insensitively, is "aave". */
  predicate IsAaveProtocol(protocol: string)
    ensures IsAaveProtocol(protocol) ==> |protocol| == 4
  {
    LowerAscii(protocol) == "aave"
  }

  /** The names accepted are exactly the sixteen spellings of "aave" in any
      mix of upper and lower case. */
  lemma AaveProtocolNames(protocol: string)
    ensures IsAaveProtocol(protocol) <==>
      && |protocol| == 4
      && protocol[0] in "aA" && protocol[1] in "aA"
      && protocol[2] in "vV" && protocol[3] in "eE"
  {
  }

  /** The records for a reserve list, the i-th decoded with the i-th clock
      reading; the first reserve that cannot be decoded stops the batch. */
  function DecodeAll(reserves: seq<Value>, clock: nat -> string): (r: Result<seq<AssetRecord>>)
    ensures r.Ok? ==> |r.value| == |reserves|
    ensures r.Ok? ==> forall i :: 0 <= i < |reserves| ==> DecodeAsset(reserves[i], clock(i)) == Ok(r.value[i])
    decreases |reserves|
  {
    if reserves == [] then Ok([])
    else
      var n := |reserves| - 1;
      var init :- DecodeAll(reserves[..n], clock);
      var last :- DecodeAsset(reserves[n], clock(n));
      assert forall i :: 0 <= i < n ==> reserves[..n][i] == reserves[i];
      Ok(init + [last])
  }

  /** What processing an Aave response computes: its first element is the
      reserve list, which is iterated and decoded reserve by reserve. */
  function AaveReserveData(rawData: Value, clock: nat -> string): (r: Result<seq<AssetRecord>>)
    ensures r.Ok? ==> Index(rawData, 0).Ok? && Iterate(Index(rawData, 0).value).Ok?
    ensures r.Ok? ==>
      var reserves := Iterate(Index(rawData, 0).value).value;
      && |r.value| == |reserves|
      && forall i :: 0 <= i < |reserves| ==> DecodeAsset(reserves[i], clock(i)) == Ok(r.value[i])
  {
    var reserveList :- Index(rawData, 0);
    var reserves :- Iterate(reserveList);
    DecodeAll(reserves, clock)
  }

  /** Processes an Aave response, appending one record per reserve in order. */
  method ProcessAaveReserveData(rawData: Value, clock: nat -> string) returns (r: Result<seq<AssetRecord>>)
    ensures r == AaveReserveData(rawData, clock)
  {
    var reserveList :- Index(rawData, 0);
    var reserves :- Iterate(reserveList);
    var processed: seq<AssetRecord> := [];
    for i := 0 to |reserves|
      invariant DecodeAll(reserves[..i], clock) == Ok(processed)
    {
      var record := DecodeAsset(reserves[i], clock(i));
      if record.Err? {
        assert forall j :: 0 <= j < i ==> reserves[..i][j] == reserves[j];
        DecodeAllStopsAtFirstFailure(reserves, clock, i);
        return Err(record.error);
      }
      assert reserves[..i + 1][..i] == reserves[..i];
      processed := processed + [record.value];
    }
    assert reserves[..|reserves|] == reserves;
    return Ok(processed);
  }

  /** Routes to the protocol's processing; every protocol but Aave is refused. */
  method ProcessReserveData(rawData: Value, protocol: string, clock: nat -> string)
    returns (r: Result<seq<AssetRecord>>)
    ensures IsAaveProtocol(protocol) ==> r == AaveReserveData(rawData, clock)
    ensures !IsAaveProtocol(protocol) ==> r == Err(UnsupportedProtocol(protocol))
  {
    if IsAaveProtocol(protocol) {
      r := ProcessAaveReserveData(rawData, clock);
    } else {
      r := Err(UnsupportedProtocol(protocol));
    }
  }

  /** A batch succeeds exactly when every reserve in it is decodable. */
  lemma {:induction false} DecodeAllSucceeds(reserves: seq<Value>, clock: nat -> string)
    ensures DecodeAll(reserves, clock).Ok? <==> forall i :: 0 <= i < |reserves| ==> Decodable(reserves[i])
  {
    if reserves != [] {
      var n := |reserves| - 1;
      DecodeAllSucceeds(reserves[..n], clock);
      assert forall i :: 0 <= i < n ==> reserves[..n][i] == reserves[i];
      if DecodeAll(reserves, clock).Ok? {
        forall i | 0 <= i < |reserves| ensures Decodable(reserves[i]) {
          assert DecodeAsset(reserves[i], clock(i)).Ok?;
        }
      }
    }
  }

  /** When reserve k is the first that cannot be decoded, the batch fails
      with that reserve's error. */
  lemma {:induction false} DecodeAllStopsAtFirstFailure(reserves: seq<Value>, clock: nat -> string, k: nat)
    requires k < |reserves|
    requires forall j :: 0 <= j < k ==> Decodable(reserves[j])
    requires !Decodable(reserves[k])
    ensures DecodeAll(reserves, clock) == Err(DecodeAsset(reserves[k], clock(k)).error)
    decreases |reserves|
  {
    var n := |reserves| - 1;
    assert forall j :: 0 <= j < n ==> reserves[..n][j] == reserves[j];
    if k == n {
      DecodeAllSucceeds(reserves[..n], clock);
    } else {
      DecodeAllStopsAtFirstFailure(reserves[..n], clock, k);
    }
  }

  /** Two runs on the same response differ at most in the records'
      timestamps: they fail alike, or give records equal field by field
      apart from loadDatetime. */
  lemma {:induction false} DecodeAllIgnoresClock(reserves: seq<Value>, clock: nat -> string, other: nat -> string)
    ensures DecodeAll(reserves, clock).Err? ==> DecodeAll(reserves, other) == DecodeAll(reserves, clock)
    ensures DecodeAll(reserves, clock).Ok? ==>
      && DecodeAll(reserves, other).Ok?
      && forall i :: 0 <= i < |reserves| ==>
           DecodeAll(reserves, other).value[i] == DecodeAll(reserves, clock).value[i].(loadDatetime := other(i))
  {
    if reserves != [] {
      var n := |reserves| - 1;
      DecodeAllIgnoresClock(reserves[..n], clock, other);
      DecodeIgnoresClock(reserves[n], clock(n), other(n));
      if DecodeAll(reserves, clock).Ok? {
        forall i | 0 <= i < |reserves|
          ensures DecodeAll(reserves, other).value[i] == DecodeAll(reserves, clock).value[i].(loadDatetime := other(i))
        {
          DecodeIgnoresClock(reserves[i], clock(i), other(i));
        }
      }
    }
  }

  /** Processing a response succeeds exactly when its first element is a
      list (or string) of decodable reserves; it then gives one record per
      reserve, in the reserves' order, and an empty list gives no records. */
  lemma AaveReserveDataShape(rawData: Value, clock: nat -> string)
    ensures AaveReserveData(rawData, clock).Ok? <==>
      && Index(rawData, 0).Ok?
      && Iterate(Index(rawData, 0).value).Ok?
      && forall i :: 0 <= i < |Iterate(Index(rawData, 0).value).value| ==>
           Decodable(Iterate(Index(rawData, 0).value).value[i])
    ensures AaveReserveData(rawData, clock).Ok? ==>
      var reserves := Iterate(Index(rawData, 0).value).value;
      && |AaveReserveData(rawData, clock).value| == |reserves|
      && forall i :: 0 <= i < |reserves| ==>
           DecodeAsset(reserves[i], clock(i)) == Ok(AaveReserveData(rawData, clock).value[i])
  {
    if Index(rawData, 0).Ok? && Iterate(Index(rawData, 0).value).Ok? {
      DecodeAllSucceeds(Iterate(Index(rawData, 0).value).value, clock);
    }
  }

  /** A response whose reserve list is empty gives no records (and no error). */
  lemma EmptyReserveList(rawData: Value, clock: nat -> string)
    requires Index(rawData, 0) == Ok(Tuple([]))
    ensures AaveReserveData(rawData, clock) == Ok([])
  {
  }
}

=== FILE: rate_math.dfy ===
/** The unit conversions and interest-rate arithmetic applied to every
    reserve: percent from basis points, ray-scaled debt, TVL, utilization and
    the per-second compounding of an annual rate. Python's float division is
    modelled by exact real division. */
module RateMath {

  /** The fixed-point scale of ray numbers: 10^27. */
  const RAY: nat := 1_000_000_000_000_000_000_000_000_000

  /** A 365-day year in seconds; interest compounds once per second. */
  const SECONDS_PER_YEAR: nat := 31_536_000

  /** A raw value expressed in hundredths of a percent, as a percentage. */
  function BpsToPercent(raw: int): (percent: real)
    ensures percent * 100.0 == raw as real
  {
    raw as real / 100.0
  }

  /** The debt owed, from the scaled debt and the ray-scaled borrow index. */
  function TotalVariableDebt(scaledDebt: int, borrowIndex: int): (debt: real)
    ensures debt * RAY as real == (scaledDebt * borrowIndex) as real
    ensures scaledDebt >= 0 && borrowIndex >= 0 ==> debt >= 0.0
    ensures borrowIndex == RAY ==> debt == scaledDebt as real
  {
    (scaledDebt * borrowIndex) as real / RAY as real
  }

  /** Total value locked: what is borrowed plus what is still available. */
  function Tvl(debt: real, availableLiquidity: int): (tvl: real)
    ensures tvl - debt == availableLiquidity as real
  {
    debt + availableLiquidity as real
  }

  /** The borrowed share of the TVL; 0 when the TVL is not positive, so that
      nothing is ever divided by zero. */
  function Utilization(debt: real, tvl: real): (u: real)
    ensures tvl > 0.0 ==> u * tvl == debt
    ensures tvl <= 0.0 ==> u == 0.0
    ensures 0.0 <= debt <= tvl ==> 0.0 <= u <= 1.0
  {
    if tvl > 0.0 then debt / tvl else 0.0
  }

  /** A ray-scaled rate as a decimal annual rate (APR). */
  function Apr(rate: int): (apr: real)
    ensures apr * RAY as real == rate as real
    ensures rate >= 0 ==> apr >= 0.0
  {
    rate as real / RAY as real
  }

  /** `x` raised to the natural power `n`; never evaluated, only reasoned
      about by the lemmas below. */
  function Pow(x: real, n: nat): real
  {
    if n == 0 then 1.0 else x * Pow(x, n - 1)
  }

  /** The annual yield, in percent, of a ray-scaled APR compounded once per
      second over a 365-day year. */
  function ApyPercent(rate: int): (apy: real)
    ensures apy / 100.0 + 1.0 == Pow(1.0 + Apr(rate) / SECONDS_PER_YEAR as real, SECONDS_PER_YEAR)
    ensures rate == 0 ==> apy == 0.0
  {
    PowOfOne(SECONDS_PER_YEAR);
    (Pow(1.0 + Apr(rate) / SECONDS_PER_YEAR as real, SECONDS_PER_YEAR) - 1.0) * 100.0
  }

  /** Utilization in percent, as the record stores it: times the TVL it is
      the debt in percent, and it is 0 when the TVL is not positive. */
  lemma UtilizationPercent(debt: real, tvl: real)
    ensures tvl > 0.0 ==> (Utilization(debt, tvl) * 100.0) * tvl == debt * 100.0
    ensures tvl <= 0.0 ==> Utilization(debt, tvl) * 100.0 == 0.0
  {
    var u := Utilization(debt, tvl);
    if tvl > 0.0 {
      assert (u * 100.0) * tvl == (u * tvl) * 100.0;
    }
  }

  /** The lowest ray-scaled rate whose per-second rate is still -100%; from
      it upwards the compounding base `1 + apr/N` is non-negative. */
  const MIN_COMPOUNDABLE_RATE: int := -(SECONDS_PER_YEAR * RAY)

  lemma TvlBounds(debt: real, availableLiquidity: int)
    requires debt >= 0.0 && availableLiquidity >= 0
    ensures Tvl(debt, availableLiquidity) >= debt
    ensures Tvl(debt, availableLiquidity) >= availableLiquidity as real
    ensures Tvl(debt, availableLiquidity) == 0.0 <==> debt == 0.0 && availableLiquidity == 0
  {
  }

  lemma {:induction false} PowOfOne(n: nat)
    ensures Pow(1.0, n) == 1.0
  {
    if n > 0 {
      PowOfOne(n - 1);
    }
  }

  lemma {:induction false} PowNonNegative(x: real, n: nat)
    requires x >= 0.0
    ensures Pow(x, n) >= 0.0
  {
    if n > 0 {
      PowNonNegative(x, n - 1);
      MulMonotone(x, 0.0, Pow(x, n - 1));
    }
  }

  lemma {:induction false} PowMonotone(x: real, y: real, n: nat)
    requires 0.0 <= x <= y
    ensures Pow(x, n) <= Pow(y, n)
  {
    if n > 0 {
      PowMonotone(x, y, n - 1);
      PowNonNegative(x, n - 1);
      var px, py := Pow(x, n - 1), Pow(y, n - 1);
      MulMonotone(x, px, py);   // x * px <= x * py
      PowNonNegative(y, n - 1);
      MulMonotone(py, x, y);    // py * x <= py * y
    }
  }

  /** Bernoulli's inequality: (1 + h)^n >= 1 + n*h for h >= -1. */
  lemma {:induction false} Bernoulli(h: real, n: nat)
    requires h >= -1.0
    ensures Pow(1.0 + h, n) >= 1.0 + (n as real) * h
  {
    if n > 0 {
      var m := (n - 1) as real;
      Bernoulli(h, n - 1);
      MulMonotone(1.0 + h, 1.0 + m * h, Pow(1.0 + h, n - 1));
      Expand(h, m);
      assert m * (h * h) >= 0.0;
      assert Pow(1.0 + h, n) == (1.0 + h) * Pow(1.0 + h, n - 1);
      assert m + 1.0 == n as real;
    }
  }

  /** Compounding a rate whose per-second rate is at least -100% yields at
      least the simple rate: APY% >= APR * 100. */
  lemma ApyAtLeastApr(rate: int)
    requires rate >= MIN_COMPOUNDABLE_RATE
    ensures ApyPercent(rate) >= Apr(rate) * 100.0
  {
    var h := Apr(rate) / SECONDS_PER_YEAR as real;
    PerSecondRateBound(rate);
    Bernoulli(h, SECONDS_PER_YEAR);
    assert (SECONDS_PER_YEAR as real) * h == Apr(rate);
  }

  /** A non-negative rate yields a non-negative APY. */
  lemma ApyNonNegative(rate: int)
    requires rate >= 0
    ensures ApyPercent(rate) >= 0.0
  {
    ApyAtLeastApr(rate);
  }

  /** APY never decreases as the rate grows. */
  lemma ApyMonotone(lower: int, upper: int)
    requires MIN_COMPOUNDABLE_RATE <= lower <= upper
    ensures ApyPercent(lower) <= ApyPercent(upper)
  {
    var x := 1.0 + Apr(lower) / SECONDS_PER_YEAR as real;
    var y := 1.0 + Apr(upper) / SECONDS_PER_YEAR as real;
    PerSecondRateBound(lower);
    assert Apr(lower) <= Apr(upper);
    PowMonotone(x, y, SECONDS_PER_YEAR);
  }

  // Arithmetic steps the solver does not find by itself.

  lemma PerSecondRateBound(rate: int)
    requires rate >= MIN_COMPOUNDABLE_RATE
    ensures Apr(rate) / SECONDS_PER_YEAR as real >= -1.0
  {
  }

  lemma MulMonotone(c: real, p: real, q: real)
    requires c >= 0.0 && p <= q
    ensures c * p <= c * q
  {
  }

  lemma Expand(h: real, m: real)
    ensures (1.0 + h) * (1.0 + m * h) == 1.0 + (m + 1.0) * h + m * (h * h)
  {
  }
}

=== FILE: raw_values.dfy ===
/** The dynamically typed values a reserve-data call returns, and the three
    things the processor does with them: subscript one, iterate over one, and
    use one as a number. */
module RawValues {
  import opened Results

  /** One value of the raw response: an integer, a boolean, a string, or a
      tuple (list) of further values. */
  datatype Value =
    | Int(i: int)
    | Flag(b: bool)
    | Text(s: string)
    | Tuple(items: seq<Value>)

  /** `v[k]` for a non-negative position `k`: a tuple yields its element, a
      string its one-character substring; reading past the end is an
      IndexError, and numbers cannot be subscripted. */
  function Index(v: Value, k: nat): Result<Value>
  {
    match v
    case Tuple(items) => if k < |items| then Ok(items[k]) else Err(IndexError)
    case Text(s) => if k < |s| then Ok(Text([s[k]])) else Err(IndexError)
    case _ => Err(TypeError)
  }

  /** The elements `for x in v` visits: a tuple's items, a string's
      characters; numbers are not iterable. */
  function Iterate(v: Value): Result<seq<Value>>
  {
    match v
    case Tuple(items) => Ok(items)
    case Text(s) => Ok(seq(|s|, i requires 0 <= i < |s| => Text([s[i]])))
    case _ => Err(TypeError)
  }

  /** The integer a value stands for in arithmetic. A boolean is the integer
      0 or 1; strings and tuples make the arithmetic fail with a TypeError. */
  function Numeric(v: Value): Result<int>
  {
    match v
    case Int(i) => Ok(i)
    case Flag(b) => Ok(if b then 1 else 0)
    case _ => Err(TypeError)
  }
}

=== FILE: reserve_decoding.dfy ===
/** Decoding of one Aave reserve tuple (an element of the `getReservesData`
    reserve list) into one metrics record. The positional layout is stated
    once, by the position constants below. */
module ReserveDecoding {
  import opened Results
  import opened RawValues
  import opened RateMath

  // Positions of the fields read from a reserve tuple.
  const ADDRESS_AT: nat := 0
  const NAME_AT: nat := 1
  const SYMBOL_AT: nat := 2
  const DECIMALS_AT: nat := 3
  const LTV_AT: nat := 4
  const LIQUIDATION_THRESHOLD_AT: nat := 5
  const LIQUIDATION_BONUS_AT: nat := 6
  const VARIABLE_BORROW_INDEX_AT: nat := 13
  const LIQUIDITY_RATE_AT: nat := 14
  const VARIABLE_BORROW_RATE_AT: nat := 15
  const AVAILABLE_LIQUIDITY_AT: nat := 20
  const TOTAL_SCALED_VARIABLE_DEBT_AT: nat := 21
  const BORROW_CAP_AT: nat := 36
  const SUPPLY_CAP_AT: nat := 37

  /** The highest position read is SUPPLY_CAP_AT, so a tuple needs this many fields. */
  const FIELD_COUNT: nat := 38

  /** The metrics emitted for one reserve. Fields copied from the tuple keep
      their raw value; derived fields are exact (unrounded) reals. */
  datatype AssetRecord = AssetRecord(
    protocol: string,
    assetAddress: Value,
    assetName: Value,
    symbol: Value,
    decimals: Value,
    ltvPercent: real,
    liquidationThresholdPercent: real,
    liquidationBonus: Value,
    tvl: real,
    totalVariableDebt: real,
    utilizationRatePercent: real,
    lendingApyPercent: real,
    variableBorrowApyPercent: real,
    spreadPercent: real,
    borrowCap: Value,
    supplyCap: Value,
    loadDatetime: string)

  /** The value at a position takes part in arithmetic without a TypeError. */
  predicate NumericAt(items: seq<Value>, at: nat)
    requires at < |items|
  {
    Numeric(items[at]).Ok?
  }

  /** A reserve the processor can decode: a tuple of at least FIELD_COUNT
      fields whose arithmetic fields are integers (or booleans). */
  predicate Decodable(asset: Value)
  {
    && asset.Tuple?
    && |asset.items| >= FIELD_COUNT
    && NumericAt(asset.items, LTV_AT)
    && NumericAt(asset.items, LIQUIDATION_THRESHOLD_AT)
    && NumericAt(asset.items, VARIABLE_BORROW_INDEX_AT)
    && NumericAt(asset.items, LIQUIDITY_RATE_AT)
    && NumericAt(asset.items, VARIABLE_BORROW_RATE_AT)
    && NumericAt(asset.items, AVAILABLE_LIQUIDITY_AT)
    && NumericAt(asset.items, TOTAL_SCALED_VARIABLE_DEBT_AT)
  }

  /** The integer at a position of a reserve tuple, as arithmetic sees it;
      0 where there is none (only consulted for decodable reserves). */
  function RawInt(asset: Value, at: nat): int
  {
    match Index(asset, at)
    case Err(_) => 0
    case Ok(v) => (match Numeric(v) case Ok(n) => n case Err(_) => 0)
  }

  /** Decodes one reserve, reading its fields in the order the processor
      reads them, so that the first bad field decides the error; `now` is
      the wall-clock reading stored in the record. */
  function DecodeAsset(asset: Value, now: string): (r: Result<AssetRecord>)
    ensures r.Ok? <==> Decodable(asset)
    ensures r.Ok? ==>
      && r.value.protocol == "Aave"
      && r.value.assetAddress == asset.items[ADDRESS_AT]
      && r.value.assetName == asset.items[NAME_AT]
      && r.value.symbol == asset.items[SYMBOL_AT]
      && r.value.decimals == asset.items[DECIMALS_AT]
      && r.value.liquidationBonus == asset.items[LIQUIDATION_BONUS_AT]
      && r.value.borrowCap == asset.items[BORROW_CAP_AT]
      && r.value.supplyCap == asset.items[SUPPLY_CAP_AT]
      && r.value.loadDatetime == now
  {
    var address :- Index(asset, ADDRESS_AT);
    var name :- Index(asset, NAME_AT);
    var symbol :- Index(asset, SYMBOL_AT);
    var decimals :- Index(asset, DECIMALS_AT);
    var ltvField :- Index(asset, LTV_AT);
    var ltv :- Numeric(ltvField);
    var thresholdField :- Index(asset, LIQUIDATION_THRESHOLD_AT);
    var threshold :- Numeric(thresholdField);
    var bonus :- Index(asset, LIQUIDATION_BONUS_AT);
    var indexField :- Index(asset, VARIABLE_BORROW_INDEX_AT);
    var scaledDebtField :- Index(asset, TOTAL_SCALED_VARIABLE_DEBT_AT);
    var liquidityField :- Index(asset, AVAILABLE_LIQUIDITY_AT);
    // The debt product fails on whichever factor is not a number.
    var scaledDebt :- Numeric(scaledDebtField);
    var borrowIndex :- Numeric(indexField);
    var debt := TotalVariableDebt(scaledDebt, borrowIndex);
    var liquidity :- Numeric(liquidityField);
    var tvl := Tvl(debt, liquidity);
    var utilization := Utilization(debt, tvl);
    var liquidityRateField :- Index(asset, LIQUIDITY_RATE_AT);
    var liquidityRate :- Numeric(liquidityRateField);
    var lendingApy := ApyPercent(liquidityRate);
    var borrowRateField :- Index(asset, VARIABLE_BORROW_RATE_AT);
    var borrowRate :- Numeric(borrowRateField);
    var borrowApy := ApyPercent(borrowRate);
    var borrowCap :- Index(asset, BORROW_CAP_AT);
    var supplyCap :- Index(asset, SUPPLY_CAP_AT);
    Ok(AssetRecord(
      protocol := "Aave",
      assetAddress := address,
      assetName := name,
      symbol := symbol,
      decimals := decimals,
      ltvPercent := BpsToPercent(ltv),
      liquidationThresholdPercent := BpsToPercent(threshold),
      liquidationBonus := bonus,
      tvl := tvl,
      totalVariableDebt := debt,
      utilizationRatePercent := utilization * 100.0,
      lendingApyPercent := lendingApy,
      variableBorrowApyPercent := borrowApy,
      spreadPercent := borrowApy - lendingApy,
      borrowCap := borrowCap,
      supplyCap := supplyCap,
      loadDatetime := now))
  }

  /** A tuple too short for the layout, whose arithmetic fields that exist
      are all numbers, fails with IndexError at the first missing position. */
  lemma ShortTupleIndexError(asset: Value, now: string)
    requires asset.Tuple? && |asset.items| < FIELD_COUNT
    requires LTV_AT < |asset.items| ==> NumericAt(asset.items, LTV_AT)
    requires LIQUIDATION_THRESHOLD_AT < |asset.items| ==> NumericAt(asset.items, LIQUIDATION_THRESHOLD_AT)
    requires VARIABLE_BORROW_INDEX_AT < |asset.items| ==> NumericAt(asset.items, VARIABLE_BORROW_INDEX_AT)
    requires LIQUIDITY_RATE_AT < |asset.items| ==> NumericAt(asset.items, LIQUIDITY_RATE_AT)
    requires VARIABLE_BORROW_RATE_AT < |asset.items| ==> NumericAt(asset.items, VARIABLE_BORROW_RATE_AT)
    requires AVAILABLE_LIQUIDITY_AT < |asset.items| ==> NumericAt(asset.items, AVAILABLE_LIQUIDITY_AT)
    requires TOTAL_SCALED_VARIABLE_DEBT_AT < |asset.items| ==> NumericAt(asset.items, TOTAL_SCALED_VARIABLE_DEBT_AT)
    ensures DecodeAsset(asset, now) == Err(IndexError)
  {
  }

  /** A full-length tuple that still cannot be decoded has a non-numeric
      arithmetic field, and fails with TypeError. */
  lemma NonNumericFieldTypeError(asset: Value, now: string)
    requires asset.Tuple? && |asset.items| >= FIELD_COUNT && !Decodable(asset)
    ensures DecodeAsset(asset, now) == Err(TypeError)
  {
  }

  /** A number in place of a reserve tuple cannot be subscripted. */
  lemma NumberReserveTypeError(asset: Value, now: string)
    requires asset.Int? || asset.Flag?
    ensures DecodeAsset(asset, now) == Err(TypeError)
  {
  }

  /** The percentages of a decoded record give back the raw basis points. */
  lemma DecodedPercents(asset: Value, now: string)
    requires Decodable(asset)
    ensures var rec := DecodeAsset(asset, now).value;
      && rec.ltvPercent * 100.0 == RawInt(asset, LTV_AT) as real
      && rec.liquidationThresholdPercent * 100.0 == RawInt(asset, LIQUIDATION_THRESHOLD_AT) as real
  {
  }

  /** The amounts of a decoded record: ray-scaled debt, TVL as debt plus
      liquidity, and utilization in percent guarded against a zero TVL. */
  lemma DecodedAmounts(asset: Value, now: string)
    requires Decodable(asset)
    ensures var rec := DecodeAsset(asset, now).value;
      && rec.totalVariableDebt * RAY as real
         == (RawInt(asset, TOTAL_SCALED_VARIABLE_DEBT_AT) * RawInt(asset, VARIABLE_BORROW_INDEX_AT)) as real
      && rec.tvl == rec.totalVariableDebt + RawInt(asset, AVAILABLE_LIQUIDITY_AT) as real
      && rec.utilizationRatePercent == Utilization(rec.totalVariableDebt, rec.tvl) * 100.0
  {
  }

  /** The APYs of a decoded record are those of the two raw rates, and the
      spread is their difference. */
  lemma DecodedApys(asset: Value, now: string)
    requires Decodable(asset)
    ensures var rec := DecodeAsset(asset, now).value;
      && rec.lendingApyPercent == ApyPercent(RawInt(asset, LIQUIDITY_RATE_AT))
      && rec.variableBorrowApyPercent == ApyPercent(RawInt(asset, VARIABLE_BORROW_RATE_AT))
      && rec.spreadPercent == rec.variableBorrowApyPercent - rec.lendingApyPercent
  {
  }

  /** With non-negative raw amounts: the debt is non-negative, the TVL covers
      the debt and the available liquidity, and utilization lies in [0, 100]. */
  lemma DecodedAmountsBounded(asset: Value, now: string)
    requires Decodable(asset)
    requires RawInt(asset, TOTAL_SCALED_VARIABLE_DEBT_AT) >= 0
    requires RawInt(asset, VARIABLE_BORROW_INDEX_AT) >= 0
    requires RawInt(asset, AVAILABLE_LIQUIDITY_AT) >= 0
    ensures var rec := DecodeAsset(asset, now).value;
      && 0.0 <= rec.totalVariableDebt <= rec.tvl
      && rec.tvl >= RawInt(asset, AVAILABLE_LIQUIDITY_AT) as real
      && 0.0 <= rec.utilizationRatePercent <= 100.0
  {
  }

  /** With non-negative rates both APYs are at least the APR in percent, and
      so non-negative. */
  lemma DecodedApysAtLeastAprs(asset: Value, now: string)
    requires Decodable(asset)
    requires RawInt(asset, LIQUIDITY_RATE_AT) >= 0
    requires RawInt(asset, VARIABLE_BORROW_RATE_AT) >= 0
    ensures var rec := DecodeAsset(asset, now).value;
      && rec.lendingApyPercent >= Apr(RawInt(asset, LIQUIDITY_RATE_AT)) * 100.0 >= 0.0
      && rec.variableBorrowApyPercent >= Apr(RawInt(asset, VARIABLE_BORROW_RATE_AT)) * 100.0 >= 0.0
  {
    DecodedApys(asset, now);
    ApyAtLeastApr(RawInt(asset, LIQUIDITY_RATE_AT));
    ApyAtLeastApr(RawInt(asset, VARIABLE_BORROW_RATE_AT));
  }

  /** The spread is non-negative whenever the variable borrow rate is at
      least the liquidity rate (and the latter is compoundable). */
  lemma DecodedSpreadNonNegative(asset: Value, now: string)
    requires Decodable(asset)
    requires MIN_COMPOUNDABLE_RATE <= RawInt(asset, LIQUIDITY_RATE_AT) <= RawInt(asset, VARIABLE_BORROW_RATE_AT)
    ensures DecodeAsset(asset, now).value.spreadPercent >= 0.0
  {
    DecodedApys(asset, now);
    ApyMonotone(RawInt(asset, LIQUIDITY_RATE_AT), RawInt(asset, VARIABLE_BORROW_RATE_AT));
  }

  /** The clock reading changes nothing but the record's timestamp. */
  lemma DecodeIgnoresClock(asset: Value, now: string, later: string)
    ensures DecodeAsset(asset, now).Err? ==> DecodeAsset(asset, later) == DecodeAsset(asset, now)
    ensures DecodeAsset(asset, now).Ok? ==>
      DecodeAsset(asset, later) == Ok(DecodeAsset(asset, now).value.(loadDatetime := later))
  {
  }
}

=== FILE: results.dfy ===
/** The failures that processing reserve data can end in. */
module Results {

  /** Why a call produced no records.
      - UnsupportedProtocol: the protocol name is not one the processor knows.
      - IndexError: a fixed position was read past the end of a tuple.
      - TypeError: a value was subscripted, iterated or used in arithmetic
        although its kind does not allow it. */
  datatype Error =
    | UnsupportedProtocol(protocol: string)
    | IndexError
    | TypeError

  /** A value or the error that stopped its computation; usable with `:-`. */
  datatype Result<+T> = Ok(value: T) | Err(error: Error) {

    predicate IsFailure() {
      Err?
    }

    function PropagateFailure<U>(): Result<U>
      requires Err?
    {
      Err(error)
    }

    function Extract(): T
      requires Ok?
    {
      value
    }
  }
}
